=== FILE: README.md ===
# Scroll-driven particle scene: a Dafny model

This project models the pure logic of `app.js`, a single-page scroll story.
A fixed list of nine sections drives a three-state background scene:
`wireframe`, `garden` and `final`. A canvas particle field is rebuilt for each
scene and moved every frame. A small audio manager is meant to play at most
one track at a time (see "## Findings"), and a helper renders media times as `MM:SS`.

The modules follow the source's classes and the helpers they own:

- `Palette` (part of `SceneManager`): the three scene states and the `types` table of `createParticles`, including the fallback to the wireframe entry for an unknown scene name.
- `AppState`: the section list, the section-index-to-scene thresholds of `updateBackground`, and the navigation dots of `updateNavDots`. DOM class changes come back as a `seq<bool>`.
- `Particles` (part of `SceneManager`): the population size (`min(100, w*h/10000)` times the scene multiplier, rounded up by the `i < count` loop), the attributes of a new particle, and the move-and-wrap step of `animate`.
- `SceneManager`: `SceneManager` as an immutable record, with `resize`, `setScene`, the constructor's `init`, and one `animate` tick.
- `Colors` (a `SceneManager` method): `hexToRgb`, plus a hexadecimal serialiser and a decimal reader as its inverses.
- `Decimal` (no class; used by `hexToRgb` and `formatTime`): how JavaScript prints integers, and a reader that inverts it.
- `TimeFormat` (an `AudioManager` method): `formatTime`, with JavaScript's truncating `%`.
- `Audio`: `toggleAudio` as a transition on per-track paused flags and `currentAudio`.
- `Scroll`: the section-enter callback that `ScrollManager.init` registers. It calls `updateSection` and then `setScene`.

Parameters stand in for the parts of the program that are not pure:

- Each `Math.random()` result is a parameter in `[0, 1)`. One `Draw` record holds the six draws a particle consumes.
- The `sin`/`cos` drift of `animate` is an arbitrary real displacement per axis.
- The window size is a parameter.
- Numbers are exact `real`s, so IEEE-754 rounding is not modelled.

Three behaviours of the code worth noting:

- After the wrap rule a coordinate lies in the closed interval `[0, width]`: a coordinate that drops below 0 is set to `width` itself.
- `setScene` always rebuilds the particle population, even when the scene is unchanged. Entering the current section again therefore restarts the field (`Scroll.ReenterRebuilds`).
- The population size is the least integer not below the fractional count. For example, 1024 x 768 gives 79 wireframe particles.

## Model

| member | source | states |
|---|---|---|
| `AppState.Initial` | app.js:2-19 | the constructed state is on the first section, and its scene state agrees with that section's index |
| `AppState.NavDots` | app.js:46-54 | one flag per dot; dot i is active iff i is a position in the list and the section there is the current one |
| `AppState.IndexOf` | app.js:34 | -1 exactly when the name is not listed; otherwise the first position holding it |
| `AppState.SceneForIndex` | app.js:35-38 | index 5 and up gives final, 2 to 4 gives garden, anything lower (including -1) gives wireframe; each in both directions |
| `AppState.UpdateBackground` | app.js:28-44 | keeps the current section and sets the scene state from the section's index in the list |
| `AppState.UpdateSection` | app.js:22-26 | records the section; the scene follows its index; dot i is active iff it is one of the nine and names that section; one entry per dot in the page |
| `AppState.IndexOfListed` | app.js:9-19 | each listed section sits at its own index, because the nine names are distinct |
| `AppState.NavDotsExactlyOne` | app.js:46-54 | at most one dot is active; the listed section's dot is active when that dot exists; no dot is active for an unlisted name |
| `AppState.SceneMonotone` | app.js:35-38 | the scene's rank never decreases as the section index grows |
| `AppState.SceneSequence` | app.js:9-19 | walking the nine sections in order gives wireframe x2, garden x3, final x4 |
| `AppState.UpdateSectionIdempotent` | app.js:22-26 | updating to the same section twice equals updating once |
| `Palette.SceneOfName` | app.js:89-93 | a string names a scene exactly when it is that scene's key in the table |
| `Palette.EntryFor` | app.js:89-93 | the table's data: the count multiplier is 1, 1.5 and 2 by rank, with colours `#00ff88`, `#ffff00`, `#8800ff` and speeds 0.5, 0.8, 1.2 |
| `Palette.ConfigFor` | app.js:89-95 | unknown names get the wireframe entry; known names get their own; the count lies between the base and twice the base, at most 200; the speed is in 0.5..1.2 |
| `Palette.EntryMonotone` | app.js:90-92 | a later scene never has a smaller count or a lower speed |
| `Particles.BaseCount` | app.js:85-88 | the base count is at most 100, at most the area / 10000, equal to it below the cap, and 0 for zero area |
| `Particles.CeilCount` | app.js:97 | the loop runs the least number of times that is not below the fractional count |
| `Particles.Coordinate` | app.js:99-100 | a random position lies in `[0, bound)`, or is 0 when the bound is 0 |
| `Particles.Velocity` | app.js:102-103 | a random speed lies in `[-speed/2, speed/2)` |
| `Particles.MakeParticle` | app.js:98-106 | a new particle lies in `[0, width) × [0, height)`, has size in `[1,3)`, opacity in `[0.3,0.8)`, speeds in `[-speed/2, speed/2)` and the configuration's colour |
| `Particles.Population` | app.js:83-107 | the old population is discarded; the new size is the least integer not below the count; every particle lies in `[0, width) × [0, height)`, is well-formed, and has the scene's colour and speed range |
| `Particles.CreateParticles` | app.js:83-107 | the integer loop against a fractional bound makes exactly the population above |
| `Particles.PopulationBounds` | app.js:85-97 | never more than 200 particles; none for zero area; at most 100 for an unknown scene and at most 150 for garden |
| `Particles.PopulationAtCap` | app.js:85-95 | from 1,000,000 square pixels up: 100 / 150 / 200 particles, and 100 for an unknown name |
| `Particles.PopulationRoundsUp` | app.js:97 | fractional counts round up (1024 x 768: 79 wireframe, 118 garden) |
| `Particles.Wrap` | app.js:127-130 | the result is in `[0, bound]`; above the bound gives 0; below 0 gives the bound; a value in range is unchanged |
| `Particles.WrapIdempotent` | app.js:127-130 | wrapping twice is the same as wrapping once |
| `Particles.Step` | app.js:121-130 | a particle moves by its speed plus the drift, then wraps; it lands inside the closed canvas and no other attribute changes |
| `Particles.Advance` | app.js:120-131 | every particle of the population takes one step; the population keeps its size |
| `SceneManager.Regenerate` | app.js:83-84 | the population is rebuilt for the current canvas and scene, every particle satisfies the invariant, and nothing else changes |
| `SceneManager.SetScene` | app.js:110-113 | the scene type is stored, the population gets the new scene's size and colour, and the canvas and frame are kept |
| `SceneManager.Resize` | app.js:77-81 | the canvas takes the new size and the population is rebuilt for it; the scene and frame are kept |
| `SceneManager.Init` | app.js:61-75 | after construction the canvas has the window size, the scene is wireframe, one frame has run (frame 1), and the population has the wireframe size with every particle in the closed canvas |
| `SceneManager.InitIgnoresFirst` | app.js:61-75 | the population built inside `resize` is discarded: the constructed manager does not depend on its draws |
| `SceneManager.AnimateFrame` | app.js:115-131 | the frame advances by one; every particle lies in the closed canvas; the invariant is kept; nothing else changes |
| `SceneManager.Run` | app.js:115-159 | over any number of frames the population keeps its size, the invariant and the canvas |
| `SceneManager.SetSceneReplaces` | app.js:84 | the new population does not depend on the old one |
| `SceneManager.SetSceneSameSceneRebuilds` | app.js:110-113 | setting the scene already in force still rebuilds the population |
| `SceneManager.EndToEndCounts` | app.js:77-97 | 1000x1000 wireframe gives 100; resizing to 2000x2000 keeps 100; switching to final gives 200 |
| `Colors.PairValue` | app.js:164-167 | `parseInt(group, 16)` of a two-digit group: the value's high hex digit is the first character's and its low digit the second's |
| `Colors.ParseHex` | app.js:163 | the scanner accepts exactly the language of the case-insensitive pattern `^#?` plus six hex digits |
| `Colors.HexToRgb` | app.js:162-170 | a rejected input gives `"0, 255, 136"`; an accepted input gives the decimal rendering of its parsed colour |
| `Colors.Render` | app.js:164-168 | the decimal triple is 7 to 13 characters, starts and ends with a digit, and holds only digits, commas and spaces |
| `Colors.ParseFormatHex` | app.js:163-168 | formatting a colour as hex, in either case and with or without `#`, then parsing it returns that colour |
| `Colors.FormatParseHex` | app.js:163-168 | the digits of an accepted input, folded to lower case, are exactly the serialised parsed colour |
| `Colors.ParseRender` | app.js:164-168 | the decimal text `"r, g, b"` reads back as the same colour |
| `Colors.RenderInjective` | app.js:164-168 | different colours render to different texts |
| `Colors.HexToRgbShape` | app.js:163-169 | an accepted input's output reads back as its parsed colour and is 7 to 13 characters long |
| `Colors.FallbackIsWireframe` | app.js:169 | the fallback text is the rendering of `#00ff88`, the wireframe colour |
| `Colors.PaletteColors` | app.js:91-92 | `#ffff00` renders as `255, 255, 0`; `#8800ff` renders as `136, 0, 255` |
| `Colors.Rejected` | app.js:163 | shorthand `#0f8`, `##00ff88`, a non-hex digit, trailing space and the empty string all give the fallback |
| `Decimal.FromNat` | app.js:165-168 | JavaScript's integer text: only digits, no leading zero, one digit below 10, two below 100, three below 1000 |
| `Decimal.ValueOfFromNat` | app.js:165-168 | the decimal text of `n` reads back as `n` |
| `Decimal.FromInt` | app.js:286-288 | a non-negative integer prints as its numeral; a negative one as `-` followed by the numeral of its magnitude |
| `TimeFormat.PadStart2` | app.js:286-288 | short strings are left-padded with `'0'` to two characters; longer strings are unchanged |
| `TimeFormat.JsRem` | app.js:285 | JavaScript's `%`: the dividend minus a whole multiple of the divisor, lying within one divisor of zero on the dividend's side |
| `TimeFormat.TruncBounds` | app.js:285 | the dividend minus the truncated quotient times the divisor is smaller than the divisor in magnitude and has the dividend's sign |
| `TimeFormat.Minutes` | app.js:284 | the minutes field is the number of whole minutes rounded down: 60 times it is at most the input, and 60 more exceeds it |
| `TimeFormat.Seconds` | app.js:285 | for non-negative input, the whole seconds past the last full minute, in 0..59; for negative input, a value in -60..0 that is the floor of minus the seconds past the last full minute of the input's magnitude |
| `TimeFormat.SplitSeconds` | app.js:284-285 | for non-negative input: seconds in 0..59, minutes >= 0, minutes*60 + seconds = floor of the input |
| `TimeFormat.FormatTime` | app.js:283-289 | for non-negative input: minutes field, `:`, then a two-digit seconds field below 60; the fields read back give the floor of the input; a minutes field longer than two characters has no leading zero |
| `TimeFormat.ExampleMinuteAndAHalf` | app.js:283-289 | 75.5 gives `01:15` |
| `TimeFormat.ExampleHour` | app.js:283-289 | 3600 gives `60:00` |
| `TimeFormat.ExampleNegative` | app.js:283-289 | -5 gives `-1:-5` (truncating `%`, no guard) |
| `Audio.Initial` | app.js:183-192 | every registered track starts paused and no track is current |
| `Audio.Flip` | app.js:270-280 | the target's paused flag flips; it becomes current iff it starts; no other track changes |
| `Audio.ToggleAsWritten` | app.js:250-281 | the code as written: an unknown id is a no-op; otherwise the target flips and becomes current iff it starts, a truthy current track other than the target is paused, a current track under `""` is left as it was when another track is clicked, and no third track changes |
| `Audio.Toggle` | app.js:250-281 | an unknown id is a no-op; a different current track is paused first; the target flips and becomes current iff it started; no third track changes; "only the current track plays" is preserved |
| `Audio.AtMostOnePlaying` | app.js:257-280 | if only the current track plays, at most one track plays |
| `Audio.AsWrittenAgrees` | app.js:258 | the code as written and the corrected guard agree unless the current id is the empty string |
| `Audio.AsWrittenTwoPlaying` | app.js:258 | as written, tracks `""` then `"a"` end up playing together |
| `Audio.Clicks` | app.js:224-227 | any run of button clicks, each handled by the code as written, keeps `currentAudio` registered and the set of tracks unchanged |
| `Audio.ClicksCorrected` | app.js:224-227 | the same run of clicks with the corrected guard keeps `currentAudio` registered and the set of tracks unchanged |
| `Audio.ClicksAgree` | app.js:250-281 | with no track under the empty id, the clicks as written and the corrected clicks end in the same state |
| `Audio.ClicksAsWrittenKeepOnePlaying` | app.js:250-281 | with no track under the empty id, any run of clicks as written keeps only the current track playing |
| `Audio.ClicksKeepOnePlaying` | app.js:250-281 | with the corrected guard, any run of clicks from a state where only the current track plays keeps that property |
| `Audio.ToggleTwice` | app.js:270-280 | clicking the current track, or a track while none is current, twice returns to the original state |
| `Scroll.EnterSection` | app.js:482-499 | entering the section at list position i records that section and sets the scene from i; the scene manager gets a type with its own table entry; exactly dot i is active; the population is rebuilt to the scene's size inside the same canvas |
| `Scroll.CountsBySection` | app.js:482-499 | with a canvas of at least 1,000,000 square pixels: sections 0-1 give 100 particles, 2-4 give 150, 5-8 give 200 |
| `Scroll.ReenterRebuilds` | app.js:489-496 | entering the current section again leaves the app state and dots unchanged, but the particle field is still rebuilt |

## Left out

- Canvas drawing is not modelled. This covers `clearRect`, `arc`, `fill`, `stroke` and the `rgba(...)` style strings. The particle state they read is modelled.
- The connection lines (app.js:141-156) are not modelled. Whether a line is drawn depends on a fresh `Math.random() > 0.7` for every pair in every frame. The alpha depends on `Math.sqrt`.
- The `requestAnimationFrame` rescheduling (app.js:159) is replaced by explicit frames (`SceneManager.Run`). The `setTimeout` timers are not modelled.
- `Math.random`, `Math.sin` and `Math.cos` become parameters. IEEE-754 rounding, `NaN` and infinities are not modelled; numbers are exact reals.
- Particles.Step: the drift is any real per axis. The source's bound of 0.1 in magnitude is not stated.
- TimeFormat.FormatTime: the contract covers non-negative inputs only. A negative input appears in one worked example, `ExampleNegative`.
- Decimal.FromNat: JavaScript's exponent notation for integers of 10^21 and above is not modelled.
- Palette.ConfigFor: keys inherited from `Object.prototype` are not modelled. Examples are `"toString"` and `"__proto__"`; these would select a non-table value. Every caller passes one of the three scene names.
- The DOM is not modelled: `querySelector`, `classList` and `innerHTML`. This includes the play/pause button icons and the `bg-layer` class toggling. The resulting data is returned instead.
- AppState.UpdateBackground: the model always completes. In the page, `querySelector` returns `null` when no `.bg-layer.<state>` element exists, and the `classList` call then throws. `sceneState` keeps its old value, and neither `updateNavDots` nor the `setScene` call that follows runs.
- Audio.Initial: the paused flags are the element defaults. An `<audio autoplay>` element starts playing without being current, so `OnlyCurrentPlays` can fail from the start.
- SceneManager.Regenerate: the count uses the canvas size stored by the last `resize()`. The source reads the live `window.innerWidth * window.innerHeight` (app.js:85-88); the two agree once the `resize` event has been handled.
- SceneManager.SetScene: it rebuilds through `Regenerate`, so its count also uses the stored canvas size in place of the live window size.
- The `isPlaying` field of each track record is not modelled. `toggleAudio` writes it but never reads it.
- Audio element events are not modelled: `loadedmetadata`, `timeupdate` and `ended`. Pausing through the browser's own controls is not modelled either. The model covers button clicks only.
- The progress-bar seek arithmetic (app.js:242-245) is not modelled. It uses floating-point media times.
- The GSAP/ScrollTrigger wiring is not modelled: the 50% thresholds, the progress bar and the parallax (app.js:467-525). The model starts from the section-enter callback itself.
- `AnimationManager`, `QuizManager`, `ProductVisualizer`, `LoadingManager` and the `window.app` global are not modelled. They are animation and UI code over external libraries.

## Findings

| source | as written | input that shows it | evidently intended | confidence | as-written member | corrected member |
|---|---|---|---|---|---|---|
| app.js:258 | `toggleAudio` pauses the other current track only if `this.currentAudio` is truthy. The empty-string id is falsy. | An `<audio>` with no `id` attribute is registered under `""`. Click its button, then the button of track `"a"`: both tracks play. | Pause any current track other than the target, so that at most one track plays. | low: needs an `<audio>` element without an `id`; not executed | `Audio.ToggleAsWritten`, `Audio.AsWrittenTwoPlaying` | `Audio.Toggle`, `Audio.ClicksCorrected`, `Audio.ClicksKeepOnePlaying` |

=== FILE: app_state.dfy ===
/** `AppState`: the current section, the scene state derived from its
    position in the fixed section list, and the navigation dots
    (app.js:1-55). DOM class toggling is returned as data. */
module AppState {

  import opened Palette

  /** The nine section identifiers, in page order. */
  const Sections: seq<string> :=
    ["hero", "tutorial", "hall", "origin", "library", "sprite", "garden", "quiz", "find"]

  /** The part of `AppState` the core reads and writes. */
  datatype State = State(currentSection: string, sceneState: SceneState)

  /** The state the constructor builds: the first section, and a scene
      state that already agrees with that section's position. */
  function Initial(): (s: State)
    ensures s.currentSection == Sections[0]
    ensures s.sceneState == SceneForIndex(IndexOf(Sections, s.currentSection))
  {
    State("hero", Wireframe)
  }

  /** `Array.prototype.indexOf`: the first position holding `s`, or -1. */
  function IndexOf(xs: seq<string>, s: string): (r: int)
    ensures -1 <= r < |xs|
    ensures r == -1 <==> s !in xs
    ensures 0 <= r ==> xs[r] == s && forall j :: 0 <= j < r ==> xs[j] != s
    decreases |xs|
  {
    if |xs| == 0 then -1
    else if xs[0] == s then 0
    else
      var k := IndexOf(xs[1..], s);
      if k == -1 then -1 else k + 1
  }

  /** The two thresholds of `updateBackground`: index 5 and up is `final`,
      2 and up is `garden`, anything lower (including -1) is `wireframe`. */
  function SceneForIndex(i: int): (s: SceneState)
    ensures s == Final <==> 5 <= i
    ensures s == Garden <==> 2 <= i < 5
    ensures s == Wireframe <==> i < 2
  {
    if i >= 5 then Final else if i >= 2 then Garden else Wireframe
  }

  /** `updateBackground`: the scene state for the current section. */
  function UpdateBackground(st: State): (r: State)
    ensures r.currentSection == st.currentSection
    ensures r.sceneState == SceneForIndex(IndexOf(Sections, st.currentSection))
  {
    st.(sceneState := SceneForIndex(IndexOf(Sections, st.currentSection)))
  }

  /** `updateNavDots`: for each of the `dotCount` dots in the page, whether
      it carries the `active` class. Dots past the ninth compare
      `undefined` with the section and stay inactive. */
  function NavDots(current: string, dotCount: nat): (dots: seq<bool>)
    ensures |dots| == dotCount
    ensures forall i :: 0 <= i < dotCount ==> (dots[i] <==> i < |Sections| && Sections[i] == current)
  {
    seq(dotCount, i => 0 <= i < |Sections| && Sections[i] == current)
  }

  /** `updateSection(section)`: records the section, then recomputes the
      scene state and the navigation dots. */
  function UpdateSection(st: State, section: string, dotCount: nat): (r: (State, seq<bool>))
    ensures r.0.currentSection == section
    ensures r.0.sceneState == SceneForIndex(IndexOf(Sections, section))
    ensures |r.1| == dotCount
    ensures forall i :: 0 <= i < dotCount ==> (r.1[i] <==> i < |Sections| && Sections[i] == section)
  {
    (UpdateBackground(st.(currentSection := section)), NavDots(section, dotCount))
  }

  /** The nine section names are pairwise distinct. */
  lemma SectionsDistinct()
    ensures forall i, j :: 0 <= i < j < |Sections| ==> Sections[i] != Sections[j]
  {
  }

  /** The scene state is monotone in the section index. */
  lemma SceneMonotone(i: int, j: int)
    requires i <= j
    ensures SceneForIndex(i).Rank() <= SceneForIndex(j).Rank()
  {
  }

  /** Walking the sections in page order yields wireframe twice, garden
      three times, then final four times. */
  lemma SceneSequence()
    ensures seq(|Sections|, i requires 0 <= i < |Sections| => SceneForIndex(IndexOf(Sections, Sections[i])))
         == [Wireframe, Wireframe, Garden, Garden, Garden, Final, Final, Final, Final]
  {
  }

  /** A listed section lies at its own index: the scene is a function of
      the section's position and nothing else. */
  lemma IndexOfListed(i: nat)
    requires i < |Sections|
    ensures IndexOf(Sections, Sections[i]) == i
  {
    SectionsDistinct();
  }

  /** After `updateSection(s)`, at most one dot is active; exactly one when
      `s` is listed and its dot exists; none when `s` is not listed. */
  lemma NavDotsExactlyOne(s: string, dotCount: nat)
    ensures forall i, j :: 0 <= i < dotCount && 0 <= j < dotCount && NavDots(s, dotCount)[i] && NavDots(s, dotCount)[j] ==> i == j
    ensures s in Sections && IndexOf(Sections, s) < dotCount ==> NavDots(s, dotCount)[IndexOf(Sections, s)]
    ensures s !in Sections ==> forall i :: 0 <= i < dotCount ==> !NavDots(s, dotCount)[i]
  {
    SectionsDistinct();
  }

  /** Re-entering the current section leaves the state as it is. */
  lemma UpdateSectionIdempotent(st: State, section: string, dotCount: nat)
    ensures UpdateSection(UpdateSection(st, section, dotCount).0, section, dotCount) == UpdateSection(st, section, dotCount)
  {
  }
}

=== FILE: audio.dfy ===
/** `AudioManager.toggleAudio` (app.js:250-281) as a transition over the
    paused flag of each registered `<audio>` element and the id the manager
    holds in `currentAudio`. Button icon updates are left to the DOM. */
module Audio {

  import opened Wrappers

  datatype Player = Player(paused: map<string, bool>, current: Option<string>)

  /** The manager after `init()`: every element paused, nothing current. */
  function Initial(ids: set<string>): (p: Player)
    ensures p.paused.Keys == ids && p.current == None
    ensures forall id :: id in ids ==> p.paused[id]
  {
    Player(map id | id in ids :: true, None)
  }

  /** `currentAudio` only ever names a registered element. */
  predicate Valid(p: Player) {
    p.current.Some? ==> p.current.value in p.paused
  }

  /** Only the current track (if any) is playing. */
  predicate OnlyCurrentPlays(p: Player) {
    forall id :: id in p.paused && !p.paused[id] ==> p.current == Some(id)
  }

  /** If only the current track plays, at most one track plays. */
  lemma AtMostOnePlaying(p: Player, a: string, b: string)
    requires OnlyCurrentPlays(p)
    requires a in p.paused && !p.paused[a]
    requires b in p.paused && !p.paused[b]
    ensures a == b
  {
  }

  /** The second half of `toggleAudio`: a paused target starts and becomes
      current; a playing target pauses and nothing is current. */
  function Flip(p: Player, id: string): (r: Player)
    requires id in p.paused
    ensures r.paused.Keys == p.paused.Keys
    ensures r.paused[id] == !p.paused[id]
    ensures forall k :: k in p.paused && k != id ==> r.paused[k] == p.paused[k]
    ensures r.current == if p.paused[id] then Some(id) else None
  {
    if p.paused[id] then Player(p.paused[id := false], Some(id))
    else Player(p.paused[id := true], None)
  }

  /** JavaScript truthiness of `currentAudio`: `null` and the empty string
      are both false. */
  predicate Truthy(c: Option<string>) {
    c.Some? && c.value != ""
  }

  /** `toggleAudio(audioId)` as written: the "pause the other track" step is
      guarded by the truthiness of `currentAudio`, so a current track whose
      id is the empty string is never paused by it. Otherwise it behaves
      like `Toggle`: the target flips and becomes current exactly when it
      starts, and no third track is touched. */
  function ToggleAsWritten(p: Player, id: string): (r: Player)
    requires Valid(p)
    ensures id !in p.paused ==> r == p
    ensures Valid(r)
    ensures r.paused.Keys == p.paused.Keys
    ensures id in p.paused ==> r.paused[id] == !p.paused[id]
    ensures id in p.paused ==> r.current == if p.paused[id] then Some(id) else None
    ensures id in p.paused && Truthy(p.current) && p.current.value != id ==> r.paused[p.current.value]
    ensures id in p.paused && p.current == Some("") && id != "" ==> r.paused[""] == p.paused[""]
    ensures forall k :: k in p.paused && k != id && Some(k) != p.current ==> r.paused[k] == p.paused[k]
  {
    if id !in p.paused then p
    else
      var p1 := if Truthy(p.current) && p.current.value != id
                then p.(paused := p.paused[p.current.value := true])
                else p;
      Flip(p1, id)
  }

  /** The step with the guard the comment "Pause current audio if different"
      asks for: any current track other than the target is paused first. An
      unknown id changes nothing; otherwise the target's flag flips, the
      target becomes current exactly when it starts, and no third track is
      touched. Only the current track ever plays. */
  function Toggle(p: Player, id: string): (r: Player)
    requires Valid(p)
    ensures id !in p.paused ==> r == p
    ensures Valid(r)
    ensures r.paused.Keys == p.paused.Keys
    ensures id in p.paused ==> r.paused[id] == !p.paused[id]
    ensures id in p.paused ==> r.current == if p.paused[id] then Some(id) else None
    ensures id in p.paused && p.current.Some? && p.current.value != id ==> r.paused[p.current.value]
    ensures forall k :: k in p.paused && k != id && Some(k) != p.current ==> r.paused[k] == p.paused[k]
    ensures OnlyCurrentPlays(p) ==> OnlyCurrentPlays(r)
  {
    if id !in p.paused then p
    else
      var p1 := if p.current.Some? && p.current.value != id
                then p.(paused := p.paused[p.current.value := true])
                else p;
      Flip(p1, id)
  }

  /** The two guards differ only when the current track's id is empty. */
  lemma AsWrittenAgrees(p: Player, id: string)
    requires Valid(p)
    requires p.current != Some("")
    ensures ToggleAsWritten(p, id) == Toggle(p, id)
  {
  }

  /** The discrepancy: with an element registered under the empty id (an
      `<audio>` without an `id` attribute), starting it and then starting a
      second track leaves both playing. */
  lemma AsWrittenTwoPlaying()
    ensures var p0 := Initial({"", "a"});
            var p1 := ToggleAsWritten(p0, "");
            var p2 := ToggleAsWritten(p1, "a");
            && OnlyCurrentPlays(p1)
            && !p2.paused[""] && !p2.paused["a"]
            && !OnlyCurrentPlays(p2)
  {
    var p0 := Initial({"", "a"});
    var p1 := ToggleAsWritten(p0, "");
    assert p1 == Player(p0.paused["" := false], Some(""));
    var p2 := ToggleAsWritten(p1, "a");
    assert p2 == Player(p1.paused["a" := false], Some("a"));
  }

  /** A run of button clicks (app.js:224-227), each handled by
      `toggleAudio` as written. Every element stays registered and
      `currentAudio` keeps naming one of them. */
  function Clicks(p: Player, ids: seq<string>): (r: Player)
    requires Valid(p)
    ensures Valid(r) && r.paused.Keys == p.paused.Keys
    decreases |ids|
  {
    if |ids| == 0 then p else Clicks(ToggleAsWritten(p, ids[0]), ids[1..])
  }

  /** The same run of clicks with the corrected guard of `Toggle`. */
  function ClicksCorrected(p: Player, ids: seq<string>): (r: Player)
    requires Valid(p)
    ensures Valid(r) && r.paused.Keys == p.paused.Keys
    decreases |ids|
  {
    if |ids| == 0 then p else ClicksCorrected(Toggle(p, ids[0]), ids[1..])
  }

  /** When no element has the empty id, the clicks as written and the
      corrected clicks end in the same state. */
  lemma {:induction false} ClicksAgree(p: Player, ids: seq<string>)
    requires Valid(p) && "" !in p.paused
    ensures Clicks(p, ids) == ClicksCorrected(p, ids)
    decreases |ids|
  {
    if |ids| > 0 {
      AsWrittenAgrees(p, ids[0]);
      ClicksAgree(Toggle(p, ids[0]), ids[1..]);
    }
  }

  /** However the buttons are clicked, with the corrected guard at most one
      track plays and it is the current one. */
  lemma {:induction false} ClicksKeepOnePlaying(p: Player, ids: seq<string>)
    requires Valid(p) && OnlyCurrentPlays(p)
    ensures OnlyCurrentPlays(ClicksCorrected(p, ids))
    decreases |ids|
  {
    if |ids| > 0 {
      ClicksKeepOnePlaying(Toggle(p, ids[0]), ids[1..]);
    }
  }

  /** With no element under the empty id, the clicks as written keep only
      the current track playing too. */
  lemma ClicksAsWrittenKeepOnePlaying(p: Player, ids: seq<string>)
    requires Valid(p) && OnlyCurrentPlays(p) && "" !in p.paused
    ensures OnlyCurrentPlays(Clicks(p, ids))
  {
    ClicksAgree(p, ids);
    ClicksKeepOnePlaying(p, ids);
  }

  /** Clicking the same button twice returns to the state before, provided
      it was the current track or nothing was current. */
  lemma ToggleTwice(p: Player, id: string)
    requires Valid(p) && OnlyCurrentPlays(p)
    requires p.current == None || p.current == Some(id)
    requires id in p.paused && p.paused[id] == (p.current == None)
    ensures Toggle(Toggle(p, id), id) == p
  {
    assert Toggle(Toggle(p, id), id).paused == p.paused;
  }
}

=== FILE: colors.dfy ===
/** `SceneManager.hexToRgb` (app.js:162-170): an optional `#` followed by
    exactly six hexadecimal digits, in either case, becomes the decimal text
    `"r, g, b"`; anything else becomes the fixed text `"0, 255, 136"`. */
module Colors {

  import opened Wrappers
  import opened Decimal
  import Palette

  type Byte = x: nat | x < 256

  datatype Rgb = Rgb(r: Byte, g: Byte, b: Byte)

  /** What `hexToRgb` returns when its pattern does not match. */
  const Fallback: string := "0, 255, 136"

  predicate AllHex(s: string) {
    forall i :: 0 <= i < |s| ==> IsHexDigit(s[i])
  }

  /** The strings the case-insensitive pattern
      `^#?([a-f\d]{2})([a-f\d]{2})([a-f\d]{2})$` accepts, stated as a
      language: six hexadecimal digits, or `#` and six hexadecimal digits. */
  predicate Matches(s: string) {
    || (|s| == 6 && AllHex(s))
    || (|s| == 7 && s[0] == '#' && AllHex(s[1..]))
  }

  /** The base-16 value of a two-digit group, as `parseInt(group, 16)`. */
  function PairValue(hi: char, lo: char): (v: Byte)
    requires IsHexDigit(hi) && IsHexDigit(lo)
    ensures v / 16 == HexDigitValue(hi) && v % 16 == HexDigitValue(lo)
  {
    16 * HexDigitValue(hi) + HexDigitValue(lo)
  }

  /** The regular-expression match and its three capture groups: skip one
      leading `#` if present, then demand exactly six hexadecimal digits. */
  function ParseHex(s: string): (r: Option<Rgb>)
    ensures r.Some? <==> Matches(s)
  {
    var body := if 0 < |s| && s[0] == '#' then s[1..] else s;
    if |body| == 6 && AllHex(body) then
      Some(Rgb(PairValue(body[0], body[1]), PairValue(body[2], body[3]), PairValue(body[4], body[5])))
    else
      None
  }

  /** The template literal `${r}, ${g}, ${b}`, each component in decimal:
      one to three digits per field, so seven to thirteen characters that
      start and end with a digit and hold only digits, commas and spaces. */
  function Render(c: Rgb): (r: string)
    ensures 7 <= |r| <= 13
    ensures IsDigit(r[0]) && IsDigit(r[|r| - 1])
    ensures forall i :: 0 <= i < |r| ==> IsDigit(r[i]) || r[i] == ',' || r[i] == ' '
  {
    FromNat(c.r) + (", " + (FromNat(c.g) + (", " + FromNat(c.b))))
  }

  /** `hexToRgb(hex)`: the decimal triple of a matching input, the fallback
      text for every other input. */
  function HexToRgb(s: string): (r: string)
    ensures !Matches(s) ==> r == Fallback
    ensures Matches(s) ==> exists c: Rgb :: ParseHex(s) == Some(c) && r == Render(c)
  {
    match ParseHex(s)
    case Some(c) => Render(c)
    case None => Fallback
  }

  // Serialising a colour as hexadecimal, the inverse of ParseHex.

  /** The two hexadecimal digits of a byte. */
  function HexPair(v: Byte, upper: bool): (p: string)
    ensures |p| == 2 && AllHex(p)
    ensures PairValue(p[0], p[1]) == v
  {
    [HexDigit(v / 16, upper), HexDigit(v % 16, upper)]
  }

  /** A colour written as six hexadecimal digits, upper- or lower-case, with
      or without the leading `#`. */
  function FormatHex(c: Rgb, upper: bool, hash: bool): (s: string)
    ensures |s| == if hash then 7 else 6
  {
    (if hash then "#" else "") + (HexPair(c.r, upper) + (HexPair(c.g, upper) + HexPair(c.b, upper)))
  }

  /** Formatting a colour as hexadecimal and parsing it back gives the same
      colour, in either case and with or without `#`. */
  lemma ParseFormatHex(c: Rgb, upper: bool, hash: bool)
    ensures ParseHex(FormatHex(c, upper, hash)) == Some(c)
    ensures HexToRgb(FormatHex(c, upper, hash)) == Render(c)
  {
    var s := FormatHex(c, upper, hash);
    var body := if hash then s[1..] else s;
    assert body == HexPair(c.r, upper) + (HexPair(c.g, upper) + HexPair(c.b, upper));
  }

  /** Folds every hexadecimal digit of a string to lower case. */
  function Lower(s: string): (l: string)
    requires AllHex(s)
    ensures |l| == |s| && AllHex(l)
    ensures forall i :: 0 <= i < |s| ==> l[i] == LowerHex(s[i])
  {
    seq(|s|, i requires 0 <= i < |s| => LowerHex(s[i]))
  }

  /** The lower-case pair of digits of a parsed group is the group itself
      folded to lower case. */
  lemma PairFormat(hi: char, lo: char)
    requires IsHexDigit(hi) && IsHexDigit(lo)
    ensures HexPair(PairValue(hi, lo), false) == [LowerHex(hi), LowerHex(lo)]
  {
    var h, l := HexDigitValue(hi), HexDigitValue(lo);
    assert (16 * h + l) / 16 == h && (16 * h + l) % 16 == l;
  }

  /** The other direction: the digits of an accepted input are, up to case,
      exactly the lower-case serialisation of the parsed colour, so two
      inputs parse to the same colour only if they agree up to case and `#`. */
  lemma FormatParseHex(s: string)
    requires Matches(s)
    ensures var body := if |s| == 7 then s[1..] else s;
            Lower(body) == FormatHex(ParseHex(s).value, false, false)
  {
    var body := if |s| == 7 then s[1..] else s;
    var c := ParseHex(s).value;
    assert c == Rgb(PairValue(body[0], body[1]), PairValue(body[2], body[3]), PairValue(body[4], body[5]));
    PairFormat(body[0], body[1]);
    PairFormat(body[2], body[3]);
    PairFormat(body[4], body[5]);
    var l := Lower(body);
    assert l == [l[0], l[1]] + ([l[2], l[3]] + [l[4], l[5]]);
  }

  // Reading the decimal text back, the inverse of Render.

  /** The length of the run of decimal digits at the start of `s`. */
  function DigitRun(s: string): (k: nat)
    ensures k <= |s|
    ensures AllDigits(s[..k])
    ensures k < |s| ==> !IsDigit(s[k])
    decreases |s|
  {
    if |s| == 0 || !IsDigit(s[0]) then 0 else 1 + DigitRun(s[1..])
  }

  /** A leading decimal field whose value is a byte, and what follows it. */
  function ReadByte(s: string): Option<(Byte, string)> {
    var k := DigitRun(s);
    if k == 0 || 255 < ValueOf(s[..k]) then None else Some((ValueOf(s[..k]), s[k..]))
  }

  /** Consumes the separator `", "` at the start of `s`. */
  function ReadComma(s: string): Option<string> {
    if 2 <= |s| && s[0] == ',' && s[1] == ' ' then Some(s[2..]) else None
  }

  /** Parses `"r, g, b"` with three decimal byte fields. */
  function ParseRgb(t: string): Option<Rgb> {
    match ReadByte(t)
    case None => None
    case Some((r, t1)) =>
      match ReadComma(t1)
      case None => None
      case Some(t2) =>
        match ReadByte(t2)
        case None => None
        case Some((g, t3)) =>
          match ReadComma(t3)
          case None => None
          case Some(t4) =>
            match ReadByte(t4)
            case None => None
            case Some((b, t5)) => if t5 == "" then Some(Rgb(r, g, b)) else None
  }

  /** A digit run stops exactly at the end of a numeral that is followed by
      a non-digit or by nothing. */
  lemma {:induction false} DigitRunOfNumeral(d: string, rest: string)
    requires AllDigits(d)
    requires rest == [] || !IsDigit(rest[0])
    ensures DigitRun(d + rest) == |d|
    decreases |d|
  {
    if |d| > 0 {
      assert (d + rest)[1..] == d[1..] + rest;
      DigitRunOfNumeral(d[1..], rest);
    }
  }

  lemma ReadByteNumeral(v: Byte, rest: string)
    requires rest == [] || !IsDigit(rest[0])
    ensures ReadByte(FromNat(v) + rest) == Some((v, rest))
  {
    var d := FromNat(v);
    DigitRunOfNumeral(d, rest);
    assert (d + rest)[..|d|] == d;
    assert (d + rest)[|d|..] == rest;
    ValueOfFromNat(v);
  }

  /** The decimal text `hexToRgb` produces reads back as the colour it came
      from: `Render` loses nothing. */
  lemma ParseRgbFields(t: string, t1: string, t2: string, t3: string, t4: string, c: Rgb)
    requires ReadByte(t) == Some((c.r, t1)) && ReadComma(t1) == Some(t2)
    requires ReadByte(t2) == Some((c.g, t3)) && ReadComma(t3) == Some(t4)
    requires ReadByte(t4) == Some((c.b, ""))
    ensures ParseRgb(t) == Some(c)
  {
  }

  /** A byte field followed by the separator reads as the byte, and the
      separator is then consumed. */
  lemma ReadByteThenComma(v: Byte, tail: string)
    ensures ReadByte(FromNat(v) + (", " + tail)) == Some((v, ", " + tail))
    ensures ReadComma(", " + tail) == Some(tail)
  {
    ReadByteNumeral(v, ", " + tail);
    assert (", " + tail)[2..] == tail;
  }

  lemma ParseRender(c: Rgb)
    ensures ParseRgb(Render(c)) == Some(c)
  {
    var bs := FromNat(c.b);
    var t2 := FromNat(c.g) + (", " + bs);
    var t := FromNat(c.r) + (", " + t2);
    assert Render(c) == t;
    assert ReadByte(t) == Some((c.r, ", " + t2)) && ReadComma(", " + t2) == Some(t2) by {
      ReadByteThenComma(c.r, t2);
    }
    assert ReadByte(t2) == Some((c.g, ", " + bs)) && ReadComma(", " + bs) == Some(bs) by {
      ReadByteThenComma(c.g, bs);
    }
    assert ReadByte(bs) == Some((c.b, "")) by {
      assert bs + "" == bs;
      ReadByteNumeral(c.b, "");
    }
    ParseRgbFields(t, ", " + t2, t2, ", " + bs, bs, c);
  }

  /** Different colours render to different texts. */
  lemma RenderInjective(c: Rgb, d: Rgb)
    requires Render(c) == Render(d)
    ensures c == d
  {
    ParseRender(c);
    ParseRender(d);
  }

  /** Every accepted input yields three decimal fields of one to three
      digits each, separated by `", "`. */
  lemma HexToRgbShape(s: string)
    requires Matches(s)
    ensures ParseRgb(HexToRgb(s)) == ParseHex(s)
    ensures 7 <= |HexToRgb(s)| <= 13
  {
    var c := ParseHex(s).value;
    ParseRender(c);
  }

  lemma Numerals()
    ensures FromNat(0) == "0" && FromNat(136) == "136" && FromNat(255) == "255"
  {
    assert FromNat(1) == "1" && FromNat(2) == "2";
    assert FromNat(13) == "13" && FromNat(25) == "25";
  }

  lemma Pairs()
    ensures HexPair(0, false) == "00" && HexPair(255, false) == "ff" && HexPair(136, false) == "88"
  {
  }

  /** The fallback text is the rendering of the wireframe colour `#00ff88`,
      so an input the pattern rejects looks like the wireframe colour. */
  lemma FallbackIsWireframe()
    ensures Fallback == Render(Rgb(0, 255, 136))
    ensures HexToRgb(Palette.WireframeColor) == Fallback
  {
    assert Fallback == Render(Rgb(0, 255, 136)) by {
      Numerals();
    }
    assert FormatHex(Rgb(0, 255, 136), false, true) == Palette.WireframeColor by {
      Pairs();
    }
    ParseFormatHex(Rgb(0, 255, 136), false, true);
  }

  /** The garden and final colours render as their decimal triples. */
  lemma PaletteColors()
    ensures HexToRgb(Palette.GardenColor) == "255, 255, 0"
    ensures HexToRgb(Palette.FinalColor) == "136, 0, 255"
  {
    GardenRenders();
    FinalRenders();
  }

  lemma GardenRenders()
    ensures HexToRgb(Palette.GardenColor) == "255, 255, 0"
  {
    assert Render(Rgb(255, 255, 0)) == "255, 255, 0" by {
      Numerals();
    }
    assert FormatHex(Rgb(255, 255, 0), false, true) == Palette.GardenColor by {
      Pairs();
    }
    ParseFormatHex(Rgb(255, 255, 0), false, true);
  }

  lemma FinalRenders()
    ensures HexToRgb(Palette.FinalColor) == "136, 0, 255"
  {
    assert Render(Rgb(136, 0, 255)) == "136, 0, 255" by {
      Numerals();
    }
    assert FormatHex(Rgb(136, 0, 255), false, true) == Palette.FinalColor by {
      Pairs();
    }
    ParseFormatHex(Rgb(136, 0, 255), false, true);
  }

  /** Inputs the pattern rejects: three-digit shorthand, a doubled `#`, a
      non-hexadecimal character, a trailing space. */
  lemma Rejected()
    ensures HexToRgb("#0f8") == Fallback
    ensures HexToRgb("##00ff88") == Fallback
    ensures HexToRgb("#00ff8g") == Fallback
    ensures HexToRgb("#00ff88 ") == Fallback
    ensures HexToRgb("") == Fallback
  {
    assert !IsHexDigit('g');
    assert !IsHexDigit(' ');
    assert !IsHexDigit('#');
  }
}

=== FILE: decimal.dfy ===
/** Decimal and hexadecimal digit strings: the `Number.prototype.toString()`
    rendering of integers used by `hexToRgb` and `formatTime`, together with a
    reader that inverts it. */
module Decimal {

  predicate IsDigit(c: char) {
    '0' <= c <= '9'
  }

  predicate AllDigits(s: string) {
    forall i :: 0 <= i < |s| ==> IsDigit(s[i])
  }

  function DigitChar(d: nat): (c: char)
    requires d < 10
    ensures IsDigit(c)
  {
    ('0' as int + d) as char
  }

  function DigitValue(c: char): (d: nat)
    requires IsDigit(c)
    ensures d < 10
    ensures DigitChar(d) == c
  {
    c as int - '0' as int
  }

  /** The shortest decimal numeral of `n`, as JavaScript prints a
      non-negative integer: no sign, no leading zero except for zero itself. */
  function FromNat(n: nat): (s: string)
    ensures 1 <= |s|
    ensures AllDigits(s)
    ensures 1 < |s| ==> s[0] != '0'
    ensures n < 10 <==> |s| == 1
    ensures n < 100 <==> |s| <= 2
    ensures n < 1000 <==> |s| <= 3
    decreases n
  {
    if n < 10 then [DigitChar(n)] else FromNat(n / 10) + [DigitChar(n % 10)]
  }

  /** The value of a decimal numeral, most significant digit first; leading
      zeros do not change it. */
  function ValueOf(s: string): nat
    requires AllDigits(s)
    decreases |s|
  {
    if |s| == 0 then 0 else ValueOf(s[..|s| - 1]) * 10 + DigitValue(s[|s| - 1])
  }

  /** JavaScript's `String(i)` for an integer-valued number: a minus sign
      followed by the numeral of the magnitude when negative. */
  function FromInt(i: int): (s: string)
    ensures 0 <= i ==> s == FromNat(i)
    ensures i < 0 ==> |s| >= 2 && s[0] == '-' && s[1..] == FromNat(-i)
  {
    if i < 0 then "-" + FromNat(-i) else FromNat(i)
  }

  /** Reading back the numeral of `n` gives `n`. */
  lemma {:induction false} ValueOfFromNat(n: nat)
    ensures ValueOf(FromNat(n)) == n
    decreases n
  {
    if n >= 10 {
      var s := FromNat(n);
      assert s[..|s| - 1] == FromNat(n / 10);
      ValueOfFromNat(n / 10);
    }
  }

  /** A leading zero does not change the value of a numeral. */
  lemma {:induction false} ValueOfLeadingZero(s: string)
    requires AllDigits(s)
    ensures AllDigits("0" + s)
    ensures ValueOf("0" + s) == ValueOf(s)
    decreases |s|
  {
    assert AllDigits("0" + s);
    if |s| > 0 {
      var t := "0" + s;
      assert t[..|t| - 1] == "0" + s[..|s| - 1];
      ValueOfLeadingZero(s[..|s| - 1]);
    }
  }

  // Hexadecimal digits, as accepted by the character class `[a-f\d]` under
  // the case-insensitive flag.

  predicate IsHexDigit(c: char) {
    IsDigit(c) || 'a' <= c <= 'f' || 'A' <= c <= 'F'
  }

  function HexDigitValue(c: char): (d: nat)
    requires IsHexDigit(c)
    ensures d < 16
  {
    if IsDigit(c) then DigitValue(c)
    else if 'a' <= c <= 'f' then c as int - 'a' as int + 10
    else c as int - 'A' as int + 10
  }

  /** The hexadecimal digit for `d`, upper- or lower-case. */
  function HexDigit(d: nat, upper: bool): (c: char)
    requires d < 16
    ensures IsHexDigit(c)
    ensures HexDigitValue(c) == d
    ensures upper ==> !('a' <= c <= 'f')
    ensures !upper ==> !('A' <= c <= 'F')
  {
    if d < 10 then DigitChar(d)
    else if upper then ('A' as int + d - 10) as char
    else ('a' as int + d - 10) as char
  }

  /** Folds a hexadecimal digit to lower case. */
  function LowerHex(c: char): (l: char)
    requires IsHexDigit(c)
    ensures IsHexDigit(l) && HexDigitValue(l) == HexDigitValue(c)
    ensures l == HexDigit(HexDigitValue(c), false)
  {
    if 'A' <= c <= 'F' then (c as int - 'A' as int + 'a' as int) as char else c
  }
}

=== FILE: palette.dfy ===
/** The three scene states and the per-scene particle configuration that
    `SceneManager.createParticles` builds (app.js:89-95). */
module Palette {

  import opened Wrappers

  /** The background/scene regimes, in the order of the `states` array
      of `AppState.updateBackground`. */
  datatype SceneState = Wireframe | Garden | Final {

    /** The string the source stores in `sceneState` and passes to `setScene`. */
    function Name(): string {
      match this
      case Wireframe => "wireframe"
      case Garden => "garden"
      case Final => "final"
    }

    /** Position in the ordering wireframe < garden < final. */
    function Rank(): nat {
      match this
      case Wireframe => 0
      case Garden => 1
      case Final => 2
    }
  }

  /** One entry of the `types` table: colour, (fractional) particle count
      and speed factor. */
  datatype Config = Config(color: string, count: real, speed: real)

  const WireframeColor: string := "#00ff88"
  const GardenColor: string := "#ffff00"
  const FinalColor: string := "#8800ff"

  /** The scene named by a `sceneType` string, if it is one of the three
      keys of the table. */
  function SceneOfName(name: string): (r: Option<SceneState>)
    ensures forall s: SceneState :: r == Some(s) <==> s.Name() == name
  {
    if name == "wireframe" then Some(Wireframe)
    else if name == "garden" then Some(Garden)
    else if name == "final" then Some(Final)
    else None
  }

  /** The table entry for a known scene, given the base count
      `min(100, innerWidth * innerHeight / 10000)`: the count multiplier
      grows by a half per rank (1, 1.5, 2), and each rank has its own
      colour and speed. */
  function EntryFor(scene: SceneState, base: real): (c: Config)
    ensures c.count == base * (2 + scene.Rank()) as real / 2.0
    ensures c.color == [WireframeColor, GardenColor, FinalColor][scene.Rank()]
    ensures c.speed == [0.5, 0.8, 1.2][scene.Rank()]
  {
    match scene
    case Wireframe => Config(WireframeColor, base, 0.5)
    case Garden => Config(GardenColor, base * 1.5, 0.8)
    case Final => Config(FinalColor, base * 2.0, 1.2)
  }

  /** `types[this.sceneType] || types.wireframe`: the entry of a known scene
      name, and the wireframe entry for any other string. */
  function ConfigFor(sceneType: string, base: real): (c: Config)
    requires 0.0 <= base <= 100.0
    ensures SceneOfName(sceneType).None? ==> c == EntryFor(Wireframe, base)
    ensures forall s: SceneState :: s.Name() == sceneType ==> c == EntryFor(s, base)
    ensures base <= c.count <= 2.0 * base
    ensures c.count <= 200.0
    ensures 0.5 <= c.speed <= 1.2
  {
    match SceneOfName(sceneType)
    case Some(s) => EntryFor(s, base)
    case None => EntryFor(Wireframe, base)
  }

  /** The multiplier grows with the scene's rank: a later scene never has
      fewer particles or a lower speed than an earlier one. */
  lemma EntryMonotone(s: SceneState, t: SceneState, base: real)
    requires 0.0 <= base
    requires s.Rank() <= t.Rank()
    ensures EntryFor(s, base).count <= EntryFor(t, base).count
    ensures EntryFor(s, base).speed <= EntryFor(t, base).speed
  {
  }
}

=== FILE: particles.dfy ===
/** The particle population of `SceneManager`: how many particles
    `createParticles` makes, what each one looks like, and the per-frame
    move-and-wrap step of `animate` (app.js:83-130).

    `Math.random()` is replaced by `Draw` records whose six values lie in
    [0, 1); the `sin`/`cos` drift of `animate` is replaced by an arbitrary
    real displacement per axis. Arithmetic is exact (`real`), not IEEE-754. */
module Particles {

  import opened Palette

  datatype Particle = Particle(
    x: real, y: real,
    size: real,
    speedX: real, speedY: real,
    color: string,
    opacity: real)

  /** The six `Math.random()` results one loop iteration consumes, in the
      order of the object literal: x, y, size, speedX, speedY, opacity. */
  datatype Draw = Draw(rx: real, ry: real, rSize: real, rSpeedX: real, rSpeedY: real, rOpacity: real)

  predicate Unit(r: real) {
    0.0 <= r < 1.0
  }

  predicate ValidDraw(d: Draw) {
    Unit(d.rx) && Unit(d.ry) && Unit(d.rSize) && Unit(d.rSpeedX) && Unit(d.rSpeedY) && Unit(d.rOpacity)
  }

  /** Every draw of a run of `Math.random()` results is valid. */
  predicate ValidDraws(draws: seq<Draw>) {
    forall i :: 0 <= i < |draws| ==> ValidDraw(draws[i])
  }

  /** The `sin`/`cos` drift added on each axis in one frame. */
  datatype Drift = Drift(dx: real, dy: real)

  /** `Math.min(100, innerWidth * innerHeight / 10000)`. */
  function BaseCount(width: nat, height: nat): (c: real)
    ensures 0.0 <= c <= 100.0
    ensures c * 10000.0 <= (width * height) as real
    ensures c < 100.0 ==> c * 10000.0 == (width * height) as real
    ensures width * height == 0 ==> c == 0.0
  {
    var a := (width * height) as real / 10000.0;
    if a < 100.0 then a else 100.0
  }

  /** The number of iterations of `for (let i = 0; i < count; i++)`: the
      least natural number not below `count`. */
  function CeilCount(count: real): (n: nat)
    requires 0.0 <= count
    ensures count <= n as real < count + 1.0
  {
    if count.Floor as real == count then count.Floor else count.Floor + 1
  }

  /** How many particles `createParticles` makes for a viewport and a
      `sceneType` string. */
  function PopulationSize(width: nat, height: nat, sceneType: string): nat {
    CeilCount(ConfigFor(sceneType, BaseCount(width, height)).count)
  }

  /** Scaling a draw from [0, 1) by a non-negative factor stays below the
      factor (or is 0 when the factor is 0). */
  lemma ScaleUnit(r: real, k: real)
    requires Unit(r) && 0.0 <= k
    ensures 0.0 <= r * k <= k
    ensures 0.0 < k ==> r * k < k
    ensures k == 0.0 ==> r * k == 0.0
  {
    var q := 1.0 - r;
    assert 0.0 < q <= 1.0;
    assert k - r * k == q * k;
  }

  /** Centring a draw before scaling keeps it within half the factor on
      either side of 0, strictly below on the upper side. */
  lemma Centered(r: real, k: real)
    requires Unit(r) && 0.0 <= k
    ensures -0.5 * k <= (r - 0.5) * k <= 0.5 * k
    ensures 0.0 < k ==> (r - 0.5) * k < 0.5 * k
  {
    assert (r - 0.5) * k == r * k - 0.5 * k;
    ScaleUnit(r, k);
  }

  /** `Math.random() * canvas.width`: a position across one axis. */
  function Coordinate(r: real, bound: nat): (c: real)
    requires Unit(r)
    ensures 0.0 <= c && (c < bound as real || (bound == 0 && c == 0.0))
  {
    ScaleUnit(r, bound as real);
    r * bound as real
  }

  /** `(Math.random() - 0.5) * config.speed`: a signed velocity component. */
  function Velocity(r: real, speed: real): (v: real)
    requires Unit(r) && 0.0 <= speed
    ensures -0.5 * speed <= v <= 0.5 * speed
    ensures 0.0 < speed ==> v < 0.5 * speed
  {
    Centered(r, speed);
    (r - 0.5) * speed
  }

  /** One particle built from one draw, as in the object literal pushed by
      `createParticles`. */
  function MakeParticle(d: Draw, cfg: Config, width: nat, height: nat): (p: Particle)
    requires ValidDraw(d)
    requires 0.0 <= cfg.speed
    ensures 0.0 <= p.x && (p.x < width as real || (width == 0 && p.x == 0.0))
    ensures 0.0 <= p.y && (p.y < height as real || (height == 0 && p.y == 0.0))
    ensures 1.0 <= p.size < 3.0
    ensures -0.5 * cfg.speed <= p.speedX <= 0.5 * cfg.speed && (0.0 < cfg.speed ==> p.speedX < 0.5 * cfg.speed)
    ensures -0.5 * cfg.speed <= p.speedY <= 0.5 * cfg.speed && (0.0 < cfg.speed ==> p.speedY < 0.5 * cfg.speed)
    ensures 0.3 <= p.opacity < 0.8
    ensures p.color == cfg.color
  {
    Particle(
      Coordinate(d.rx, width),
      Coordinate(d.ry, height),
      d.rSize * 2.0 + 1.0,
      Velocity(d.rSpeedX, cfg.speed),
      Velocity(d.rSpeedY, cfg.speed),
      cfg.color,
      d.rOpacity * 0.5 + 0.3)
  }

  /** The invariant every live particle keeps: inside the closed viewport,
      with the size, opacity, speed and colour bounds of the table. */
  predicate WellFormed(p: Particle, width: nat, height: nat) {
    && 0.0 <= p.x <= width as real
    && 0.0 <= p.y <= height as real
    && 1.0 <= p.size < 3.0
    && 0.3 <= p.opacity < 0.8
    && -0.6 <= p.speedX < 0.6
    && -0.6 <= p.speedY < 0.6
    && p.color in {WireframeColor, GardenColor, FinalColor}
  }

  /** The population `createParticles` leaves behind: the old one is
      discarded, its size is the least integer not below the table's count,
      and every particle is drawn in `[0, width) x [0, height)` with the
      configuration's colour and bounded speeds. */
  function Population(width: nat, height: nat, sceneType: string, draws: seq<Draw>): (ps: seq<Particle>)
    requires PopulationSize(width, height, sceneType) <= |draws|
    requires ValidDraws(draws)
    ensures ConfigFor(sceneType, BaseCount(width, height)).count <= |ps| as real
    ensures (|ps| - 1) as real < ConfigFor(sceneType, BaseCount(width, height)).count
    ensures forall i :: 0 <= i < |ps| ==> ps[i].x < width as real && ps[i].y < height as real
    ensures forall i :: 0 <= i < |ps| ==> WellFormed(ps[i], width, height)
    ensures forall i :: 0 <= i < |ps| ==> ps[i].color == ConfigFor(sceneType, BaseCount(width, height)).color
    ensures forall i :: 0 <= i < |ps| ==>
              var speed := ConfigFor(sceneType, BaseCount(width, height)).speed;
              -0.5 * speed <= ps[i].speedX < 0.5 * speed && -0.5 * speed <= ps[i].speedY < 0.5 * speed
  {
    var cfg := ConfigFor(sceneType, BaseCount(width, height));
    seq(PopulationSize(width, height, sceneType),
        i requires 0 <= i < PopulationSize(width, height, sceneType) => MakeParticle(draws[i], cfg, width, height))
  }

  /** The loop of `createParticles`, counting with an integer `i` against a
      possibly fractional `config.count`. */
  method CreateParticles(width: nat, height: nat, sceneType: string, draws: seq<Draw>) returns (ps: seq<Particle>)
    requires PopulationSize(width, height, sceneType) <= |draws|
    requires ValidDraws(draws)
    ensures ConfigFor(sceneType, BaseCount(width, height)).count <= |ps| as real
    ensures (|ps| - 1) as real < ConfigFor(sceneType, BaseCount(width, height)).count
    ensures ps == Population(width, height, sceneType, draws)
  {
    var config := ConfigFor(sceneType, BaseCount(width, height));
    ghost var n := PopulationSize(width, height, sceneType);
    ps := [];
    var i := 0;
    while (i as real) < config.count
      invariant 0 <= i <= n
      invariant |ps| == i
      invariant forall j :: 0 <= j < i ==> ps[j] == MakeParticle(draws[j], config, width, height)
      decreases n - i
    {
      ps := ps + [MakeParticle(draws[i], config, width, height)];
      i := i + 1;
    }
  }

  /** The size of the population: never more than 200, none at all for a
      viewport of zero area, and at most 100 times the scene multiplier. */
  lemma PopulationBounds(width: nat, height: nat, sceneType: string)
    ensures PopulationSize(width, height, sceneType) <= 200
    ensures width * height == 0 ==> PopulationSize(width, height, sceneType) == 0
    ensures SceneOfName(sceneType).None? ==> PopulationSize(width, height, sceneType) <= 100
    ensures sceneType == "garden" ==> PopulationSize(width, height, sceneType) <= 150
  {
  }

  /** The count does not grow past the cap once the area reaches 1,000,000
      square pixels, and doubles from wireframe to final at that cap. */
  lemma PopulationAtCap(width: nat, height: nat)
    requires 1000000 <= width * height
    ensures PopulationSize(width, height, "wireframe") == 100
    ensures PopulationSize(width, height, "garden") == 150
    ensures PopulationSize(width, height, "final") == 200
    ensures PopulationSize(width, height, "sepia") == 100
  {
  }

  /** A fractional count rounds up: 1024 x 768 gives 78.6432 and so 79
      wireframe particles, and 118 garden particles for 117.9648. */
  lemma PopulationRoundsUp()
    ensures PopulationSize(1024, 768, "wireframe") == 79
    ensures PopulationSize(1024, 768, "garden") == 118
    ensures PopulationSize(1, 1, "final") == 1
  {
  }

  /** The wrap rule of `animate` for one coordinate: past the far edge goes
      to 0, below 0 goes to the far edge. */
  function Wrap(v: real, bound: nat): (r: real)
    ensures 0.0 <= r <= bound as real
    ensures v > bound as real ==> r == 0.0
    ensures v < 0.0 ==> r == bound as real
    ensures 0.0 <= v <= bound as real ==> r == v
  {
    var a := if v > bound as real then 0.0 else v;
    if a < 0.0 then bound as real else a
  }

  /** Wrapping a wrapped coordinate changes nothing. */
  lemma WrapIdempotent(v: real, bound: nat)
    ensures Wrap(Wrap(v, bound), bound) == Wrap(v, bound)
  {
  }

  /** One particle's update in one frame: move by its speed plus the drift,
      then wrap each axis. */
  function Step(p: Particle, width: nat, height: nat, drift: Drift): (q: Particle)
    ensures 0.0 <= q.x <= width as real && 0.0 <= q.y <= height as real
    ensures q == p.(x := q.x, y := q.y)
    ensures q.x == Wrap(p.x + p.speedX + drift.dx, width)
    ensures q.y == Wrap(p.y + p.speedY + drift.dy, height)
  {
    p.(x := Wrap(p.x + p.speedX + drift.dx, width), y := Wrap(p.y + p.speedY + drift.dy, height))
  }

  /** The `forEach` of `animate` over the whole population. */
  function Advance(ps: seq<Particle>, width: nat, height: nat, drifts: seq<Drift>): (qs: seq<Particle>)
    requires |drifts| == |ps|
    ensures |qs| == |ps|
    ensures forall i :: 0 <= i < |ps| ==> qs[i] == Step(ps[i], width, height, drifts[i])
  {
    seq(|ps|, i requires 0 <= i < |ps| => Step(ps[i], width, height, drifts[i]))
  }
}

=== FILE: scene_manager.dfy ===
/** `SceneManager` as a value: the canvas size, the scene type string, the
    live particle population and the frame counter, with the transitions
    `resize`, `setScene` and one tick of `animate` (app.js:60-160). Drawing
    on the canvas and the `requestAnimationFrame` rescheduling are not part
    of the state. */
module SceneManager {

  import opened Palette
  import opened Particles

  datatype Manager = Manager(width: nat, height: nat, sceneType: string, particles: seq<Particle>, frame: nat)

  /** Every live particle satisfies the particle invariant for the current
      canvas size. */
  predicate Valid(m: Manager) {
    forall i :: 0 <= i < |m.particles| ==> WellFormed(m.particles[i], m.width, m.height)
  }

  /** `createParticles()` on the current canvas size and scene type. */
  function Regenerate(m: Manager, draws: seq<Draw>): (r: Manager)
    requires PopulationSize(m.width, m.height, m.sceneType) <= |draws| && ValidDraws(draws)
    ensures Valid(r)
    ensures r == m.(particles := r.particles)
    ensures |r.particles| == PopulationSize(m.width, m.height, m.sceneType)
  {
    m.(particles := Population(m.width, m.height, m.sceneType, draws))
  }

  /** `setScene(type)`: store the type, then rebuild the population for it. */
  function SetScene(m: Manager, sceneType: string, draws: seq<Draw>): (r: Manager)
    requires PopulationSize(m.width, m.height, sceneType) <= |draws| && ValidDraws(draws)
    ensures Valid(r)
    ensures r.sceneType == sceneType
    ensures r.width == m.width && r.height == m.height && r.frame == m.frame
    ensures |r.particles| == PopulationSize(m.width, m.height, sceneType)
    ensures forall i :: 0 <= i < |r.particles| ==> r.particles[i].color == ConfigFor(sceneType, BaseCount(m.width, m.height)).color
  {
    Regenerate(m.(sceneType := sceneType), draws)
  }

  /** `resize()`: the canvas takes the window's size, then the population is
      rebuilt for the current scene type. */
  function Resize(m: Manager, width: nat, height: nat, draws: seq<Draw>): (r: Manager)
    requires PopulationSize(width, height, m.sceneType) <= |draws| && ValidDraws(draws)
    ensures Valid(r)
    ensures r.width == width && r.height == height
    ensures r.sceneType == m.sceneType && r.frame == m.frame
    ensures |r.particles| == PopulationSize(width, height, m.sceneType)
  {
    Regenerate(m.(width := width, height := height), draws)
  }

  /** One tick of `animate()`: the frame counter advances and every particle
      moves and wraps; nothing else changes. */
  function AnimateFrame(m: Manager, drifts: seq<Drift>): (r: Manager)
    requires |drifts| == |m.particles|
    ensures r.frame == m.frame + 1
    ensures r == m.(frame := r.frame, particles := r.particles)
    ensures |r.particles| == |m.particles|
    ensures forall i :: 0 <= i < |r.particles| ==>
              0.0 <= r.particles[i].x <= m.width as real && 0.0 <= r.particles[i].y <= m.height as real
    ensures Valid(m) ==> Valid(r)
  {
    m.(frame := m.frame + 1, particles := Advance(m.particles, m.width, m.height, drifts))
  }

  /** `new SceneManager()`: the wireframe scene; `init()` calls `resize()`
      (which builds a population from `first`), then `createParticles()`
      again (from `second`), then `animate()` once, synchronously (with
      `drifts`). The constructor returns at frame 1 with the second
      population moved and wrapped once. */
  function Init(width: nat, height: nat, first: seq<Draw>, second: seq<Draw>, drifts: seq<Drift>): (r: Manager)
    requires PopulationSize(width, height, "wireframe") <= |first| && ValidDraws(first)
    requires PopulationSize(width, height, "wireframe") <= |second| && ValidDraws(second)
    requires |drifts| == PopulationSize(width, height, "wireframe")
    ensures Valid(r)
    ensures r.sceneType == "wireframe" && r.frame == 1
    ensures r.width == width && r.height == height
    ensures |r.particles| == PopulationSize(width, height, "wireframe")
  {
    var built := Regenerate(Resize(Manager(0, 0, "wireframe", [], 0), width, height, first), second);
    AnimateFrame(built, drifts)
  }

  /** The population `resize()` builds during `init()` is discarded at
      once: the constructed manager does not depend on it. */
  lemma InitIgnoresFirst(width: nat, height: nat, first1: seq<Draw>, first2: seq<Draw>, second: seq<Draw>, drifts: seq<Drift>)
    requires PopulationSize(width, height, "wireframe") <= |first1| && ValidDraws(first1)
    requires PopulationSize(width, height, "wireframe") <= |first2| && ValidDraws(first2)
    requires PopulationSize(width, height, "wireframe") <= |second| && ValidDraws(second)
    requires |drifts| == PopulationSize(width, height, "wireframe")
    ensures Init(width, height, first1, second, drifts) == Init(width, height, first2, second, drifts)
  {
  }

  /** Whether a run of frames supplies one drift per particle in each frame. */
  predicate DriftsFit(frames: seq<seq<Drift>>, n: nat) {
    forall k :: 0 <= k < |frames| ==> |frames[k]| == n
  }

  /** Many ticks of `animate()` with no resize or scene change in between:
      the population keeps its size and its invariant however many frames
      pass. */
  function Run(m: Manager, frames: seq<seq<Drift>>): (r: Manager)
    requires DriftsFit(frames, |m.particles|)
    ensures r.frame == m.frame + |frames|
    ensures |r.particles| == |m.particles|
    ensures r.width == m.width && r.height == m.height && r.sceneType == m.sceneType
    ensures Valid(m) ==> Valid(r)
    decreases |frames|
  {
    if |frames| == 0 then m else Run(AnimateFrame(m, frames[0]), frames[1..])
  }

  /** `setScene` discards the old population entirely: two managers with the
      same canvas size end up with the same particles from the same draws,
      whatever they held before. */
  lemma SetSceneReplaces(m1: Manager, m2: Manager, sceneType: string, draws: seq<Draw>)
    requires m1.width == m2.width && m1.height == m2.height
    requires PopulationSize(m1.width, m1.height, sceneType) <= |draws| && ValidDraws(draws)
    ensures SetScene(m1, sceneType, draws).particles == SetScene(m2, sceneType, draws).particles
  {
  }

  /** `setScene` with the scene already in force still rebuilds the
      population: the result is whatever the new draws give, not the
      previous particles. */
  lemma SetSceneSameSceneRebuilds(m: Manager, draws: seq<Draw>)
    requires PopulationSize(m.width, m.height, m.sceneType) <= |draws| && ValidDraws(draws)
    ensures SetScene(m, m.sceneType, draws) == Regenerate(m, draws)
  {
  }

  /** The end-to-end sizes: a 1000 x 1000 wireframe field has 100
      particles, resizing to 2000 x 2000 keeps 100, and switching to the
      final scene doubles it to 200. */
  lemma EndToEndCounts(m: Manager, d1: seq<Draw>, d2: seq<Draw>, d3: seq<Draw>)
    requires m.sceneType == "wireframe"
    requires |d1| >= 100 && |d2| >= 100 && |d3| >= 200
    requires ValidDraws(d1) && ValidDraws(d2) && ValidDraws(d3)
    ensures PopulationSize(1000, 1000, "wireframe") == 100
    ensures |Resize(m, 1000, 1000, d1).particles| == 100
    ensures PopulationSize(2000, 2000, "wireframe") == 100
    ensures |Resize(Resize(m, 1000, 1000, d1), 2000, 2000, d2).particles| == 100
    ensures PopulationSize(2000, 2000, "final") == 200
    ensures |SetScene(Resize(Resize(m, 1000, 1000, d1), 2000, 2000, d2), "final", d3).particles| == 200
  {
    PopulationAtCap(1000, 1000);
    PopulationAtCap(2000, 2000);
  }
}

=== FILE: scroll.dfy ===
/** The section-enter callback `ScrollManager.init` registers for each
    listed section (app.js:482-499): on entering the section, forwards or
    backwards, `appState.updateSection(id)` and then
    `sceneManager.setScene(appState.sceneState)`. Scroll positions and the
    50% thresholds belong to the scroll library and are not modelled: the
    model starts from the callback being run. */
module Scroll {

  import opened Wrappers
  import opened Palette
  import AppState
  import Particles
  import SceneManager

  /** The pair of calls made by `onEnter` and by `onEnterBack` (they are
      identical) for the section the `forEach` over the list visited at
      position `i`. */
  function EnterSection(app: AppState.State, scene: SceneManager.Manager, i: nat, dotCount: nat, draws: seq<Particles.Draw>)
    : (r: (AppState.State, seq<bool>, SceneManager.Manager))
    requires i < |AppState.Sections|
    requires Particles.PopulationSize(scene.width, scene.height, AppState.SceneForIndex(i).Name()) <= |draws|
    requires Particles.ValidDraws(draws)
    ensures r.0.currentSection == AppState.Sections[i]
    ensures r.0.sceneState == AppState.SceneForIndex(i)
    ensures r.2.sceneType == r.0.sceneState.Name()
    ensures SceneOfName(r.2.sceneType) == Some(r.0.sceneState)
    ensures |r.1| == dotCount
    ensures forall j :: 0 <= j < dotCount ==> (r.1[j] <==> j == i)
    ensures SceneManager.Valid(r.2)
    ensures r.2.width == scene.width && r.2.height == scene.height && r.2.frame == scene.frame
    ensures |r.2.particles| == Particles.PopulationSize(scene.width, scene.height, r.0.sceneState.Name())
  {
    AppState.IndexOfListed(i);
    AppState.SectionsDistinct();
    var (app1, dots) := AppState.UpdateSection(app, AppState.Sections[i], dotCount);
    (app1, dots, SceneManager.SetScene(scene, app1.sceneState.Name(), draws))
  }

  /** Entering a section in a viewport of at least 1,000,000 square pixels
      gives 100 particles in the first two sections, 150 in the next three
      and 200 in the last four. */
  lemma CountsBySection(app: AppState.State, scene: SceneManager.Manager, i: nat, dotCount: nat, draws: seq<Particles.Draw>)
    requires i < |AppState.Sections|
    requires 1000000 <= scene.width * scene.height
    requires 200 <= |draws| && Particles.ValidDraws(draws)
    ensures Particles.PopulationSize(scene.width, scene.height, AppState.SceneForIndex(i).Name()) <= 200
    ensures var n := |EnterSection(app, scene, i, dotCount, draws).2.particles|;
            n == if i < 2 then 100 else if i < 5 then 150 else 200
  {
    Particles.PopulationBounds(scene.width, scene.height, AppState.SceneForIndex(i).Name());
    Particles.PopulationAtCap(scene.width, scene.height);
  }

  /** Entering the section that is already current leaves the application
      state as it was, but the particle field is still rebuilt from fresh
      draws: the callback has no same-section check. */
  lemma ReenterRebuilds(app: AppState.State, scene: SceneManager.Manager, i: nat, dotCount: nat, d1: seq<Particles.Draw>, d2: seq<Particles.Draw>)
    requires i < |AppState.Sections|
    requires Particles.PopulationSize(scene.width, scene.height, AppState.SceneForIndex(i).Name()) <= |d1|
    requires Particles.PopulationSize(scene.width, scene.height, AppState.SceneForIndex(i).Name()) <= |d2|
    requires Particles.ValidDraws(d1) && Particles.ValidDraws(d2)
    ensures var first := EnterSection(app, scene, i, dotCount, d1);
            var second := EnterSection(first.0, first.2, i, dotCount, d2);
            && second.0 == first.0
            && second.1 == first.1
            && second.2 == SceneManager.Regenerate(first.2, d2)
  {
  }
}

=== FILE: time_format.dfy ===
/** `AudioManager.formatTime` (app.js:283-289): seconds as `MM:SS`, each
    field the decimal text of an integer left-padded with `'0'` to at least
    two characters. Media times are modelled as exact reals. */
module TimeFormat {

  import opened Decimal

  /** `Math.trunc`. */
  function Trunc(r: real): (t: int)
    ensures 0.0 <= r ==> t == r.Floor
    ensures r < 0.0 ==> t == -((-r).Floor)
  {
    if 0.0 <= r then r.Floor else -((-r).Floor)
  }

  /** JavaScript's `%` on numbers: the dividend minus a whole multiple of
      the divisor. The remainder takes the dividend's sign (truncated
      division), unlike Dafny's Euclidean `%`, and is smaller in magnitude
      than the divisor; these together fix it. */
  function JsRem(a: real, b: real): (r: real)
    requires b != 0.0
    ensures ((a - r) / b).Floor as real == (a - r) / b
    ensures 0.0 <= a ==> 0.0 <= r < Abs(b)
    ensures a < 0.0 ==> -Abs(b) < r <= 0.0
  {
    var q := Trunc(a / b);
    TruncBounds(a, b);
    WholeMultiple(b, q);
    a - b * q as real
  }

  /** A whole multiple of `b`, divided by `b`, is that whole number. */
  lemma WholeMultiple(b: real, q: int)
    requires b != 0.0
    ensures (b * q as real) / b == q as real
  {
  }

  function Abs(x: real): real {
    if x < 0.0 then -x else x
  }

  /** The truncated quotient times the divisor lies within one divisor of
      the dividend, on the dividend's side of zero. */
  lemma TruncBounds(a: real, b: real)
    requires b != 0.0
    ensures 0.0 <= a ==> 0.0 <= a - b * Trunc(a / b) as real < Abs(b)
    ensures a < 0.0 ==> -Abs(b) < a - b * Trunc(a / b) as real <= 0.0
  {
    var x := a / b;
    var q := Trunc(x) as real;
    Quotient(a, b);
    Distribute(a, b, x, q);
    // the remainder is b times the fraction x - q, which lies in (-1, 1)
    var m := Scale(b, x - q);
    SignedRemainder(a, b, x, x - q, m);
  }

  lemma Quotient(a: real, b: real)
    requires b != 0.0
    ensures b * (a / b) == a
    ensures 0.0 < b ==> (0.0 <= a <==> 0.0 <= a / b)
    ensures b < 0.0 ==> (0.0 <= a <==> a / b <= 0.0)
  {
  }

  lemma Distribute(a: real, b: real, x: real, q: real)
    requires b * x == a
    ensures a - b * q == b * (x - q)
  {
  }

  /** A fraction in (-1, 1) of a positive number is smaller than it in
      magnitude and has the fraction's sign. */
  lemma ScaledFraction(b: real, d: real)
    requires 0.0 < b && -1.0 < d < 1.0
    ensures -b < b * d < b
    ensures 0.0 <= d ==> 0.0 <= b * d
    ensures d <= 0.0 ==> b * d <= 0.0
  {
    assert b * (1.0 - d) > 0.0;
    assert b * (1.0 + d) > 0.0;
  }

  lemma NegateFactor(b: real, d: real)
    ensures (-b) * d == -(b * d)
  {
  }

  /** `b * d` for either sign of `b`, returned as `m` so that callers reason
      about it linearly. */
  lemma Scale(b: real, d: real) returns (m: real)
    requires b != 0.0 && -1.0 < d < 1.0
    ensures m == b * d
    ensures 0.0 < b ==> -b < m < b
    ensures b < 0.0 ==> b < m < -b
    ensures (0.0 <= d) == (0.0 <= b) ==> 0.0 <= m
    ensures (0.0 <= d) != (0.0 <= b) ==> m <= 0.0
    ensures d == 0.0 ==> m == 0.0
  {
    m := b * d;
    if 0.0 < b {
      ScaledFraction(b, d);
    } else {
      ScaledFraction(-b, d);
      NegateFactor(b, d);
    }
  }

  /** The sign bookkeeping of `TruncBounds`, free of products: `x` is the
      quotient, `d` its fractional part and `m` the remainder `b * d`. */
  lemma SignedRemainder(a: real, b: real, x: real, d: real, m: real)
    requires b != 0.0
    requires 0.0 < b ==> (0.0 <= a <==> 0.0 <= x)
    requires b < 0.0 ==> (0.0 <= a <==> x <= 0.0)
    requires 0.0 <= x ==> 0.0 <= d < 1.0
    requires x < 0.0 ==> -1.0 < d <= 0.0
    requires x == 0.0 ==> d == 0.0
    requires 0.0 < b ==> -b < m < b
    requires b < 0.0 ==> b < m < -b
    requires (0.0 <= d) == (0.0 <= b) ==> 0.0 <= m
    requires (0.0 <= d) != (0.0 <= b) ==> m <= 0.0
    requires d == 0.0 ==> m == 0.0
    ensures 0.0 <= a ==> 0.0 <= m < Abs(b)
    ensures a < 0.0 ==> -Abs(b) < m <= 0.0
  {
  }

  /** `String.prototype.padStart(2, "0")`: strings of two or more characters
      are returned unchanged, shorter ones get zeros in front. */
  function PadStart2(s: string): (p: string)
    ensures |p| == if |s| < 2 then 2 else |s|
    ensures p[|p| - |s|..] == s
    ensures forall i :: 0 <= i < |p| - |s| ==> p[i] == '0'
  {
    if 2 <= |s| then s else seq(2 - |s|, _ => '0') + s
  }

  /** `Math.floor(seconds / 60)`: the number of whole minutes, rounding
      towards minus infinity. */
  function Minutes(seconds: real): (m: int)
    ensures 60.0 * m as real <= seconds < 60.0 * m as real + 60.0
  {
    (seconds / 60.0).Floor
  }

  /** `Math.floor(seconds % 60)`: for a non-negative time, the whole seconds
      past the last full minute; for a negative one the remainder keeps the
      minus sign: it is minus the seconds past the last full minute of the
      magnitude, and its floor lies in -60..0. */
  function Seconds(seconds: real): (r: int)
    ensures 0.0 <= seconds ==> 0 <= r < 60
    ensures 0.0 <= seconds ==>
              r as real <= seconds - 60.0 * Minutes(seconds) as real < r as real + 1.0
    ensures seconds < 0.0 ==> -60 <= r <= 0
    ensures seconds < 0.0 ==>
              r as real <= -(-seconds - 60.0 * Minutes(-seconds) as real) < r as real + 1.0
  {
    NegatedQuotient(seconds);
    JsRem(seconds, 60.0).Floor
  }

  /** Truncating a negative time's minutes is minus the floor of its
      magnitude's: the remainder mirrors the non-negative one. */
  lemma NegatedQuotient(seconds: real)
    ensures seconds < 0.0 ==> Trunc(seconds / 60.0) == -Minutes(-seconds)
  {
    assert (-seconds) / 60.0 == -(seconds / 60.0);
  }

  /** For a non-negative time the two fields split its whole seconds:
      minutes times 60 plus seconds is the floor of the input, with seconds
      in 0..59. */
  lemma SplitSeconds(seconds: real)
    requires 0.0 <= seconds
    ensures 0 <= Minutes(seconds)
    ensures 0 <= Seconds(seconds) < 60
    ensures Minutes(seconds) * 60 + Seconds(seconds) == seconds.Floor
  {
    var m := Minutes(seconds);
    assert Trunc(seconds / 60.0) == m;
    assert m as real <= seconds / 60.0 < m as real + 1.0;
    assert 60.0 * m as real <= seconds < 60.0 * m as real + 60.0;
    var rem := seconds - 60.0 * m as real;
    assert JsRem(seconds, 60.0) == rem;
    assert 0.0 <= rem < 60.0;
    assert rem.Floor + 60 * m == seconds.Floor;
  }

  /** `formatTime(seconds)`: for non-negative input the text is a
      minutes field, `:`, and a two-digit seconds field; reading the fields
      back as decimal numbers gives the whole seconds of the input, and the
      seconds field is below 60. */
  function FormatTime(seconds: real): (r: string)
    ensures 0.0 <= seconds ==> 5 <= |r| && r[|r| - 3] == ':'
    ensures 0.0 <= seconds ==> AllDigits(r[..|r| - 3]) && AllDigits(r[|r| - 2..])
    ensures 0.0 <= seconds ==>
              && ValueOf(r[|r| - 2..]) < 60
              && ValueOf(r[..|r| - 3]) * 60 + ValueOf(r[|r| - 2..]) == seconds.Floor
    ensures 0.0 <= seconds ==> |r| == 5 || r[0] != '0'
  {
    var r := PadStart2(FromInt(Minutes(seconds))) + ":" + PadStart2(FromInt(Seconds(seconds)));
    if 0.0 <= seconds then
      FieldsOfNonNegative(seconds);
      r
    else
      r
  }

  /** A padded numeral keeps the numeral's value. */
  lemma PaddedValue(n: nat)
    ensures AllDigits(PadStart2(FromNat(n)))
    ensures ValueOf(PadStart2(FromNat(n))) == n
    ensures |PadStart2(FromNat(n))| == 2 || PadStart2(FromNat(n))[0] != '0'
  {
    var d := FromNat(n);
    ValueOfFromNat(n);
    if |d| < 2 {
      assert PadStart2(d) == "0" + d;
      ValueOfLeadingZero(d);
    }
  }

  lemma FieldsOfNonNegative(seconds: real)
    requires 0.0 <= seconds
    ensures var a := PadStart2(FromInt(Minutes(seconds)));
            var b := PadStart2(FromInt(Seconds(seconds)));
            var r := a + ":" + b;
            && 2 <= |a| && |b| == 2
            && (|a| == 2 || a[0] != '0')
            && r[..|r| - 3] == a && r[|r| - 3] == ':' && r[|r| - 2..] == b
            && AllDigits(a) && AllDigits(b)
            && ValueOf(b) < 60
            && ValueOf(a) * 60 + ValueOf(b) == seconds.Floor
  {
    SplitSeconds(seconds);
    var m: nat := Minutes(seconds);
    var s: nat := Seconds(seconds);
    PaddedValue(m);
    PaddedValue(s);
    assert FromInt(m) == FromNat(m) && FromInt(s) == FromNat(s);
    Join(PadStart2(FromNat(m)), PadStart2(FromNat(s)));
  }

  /** Where the two fields sit in `a + ":" + b`. */
  lemma Join(a: string, b: string)
    requires 2 <= |a| && |b| == 2
    ensures var r := a + ":" + b;
            && |r| == |a| + 3 && r[0] == a[0]
            && r[..|r| - 3] == a && r[|r| - 3] == ':' && r[|r| - 2..] == b
  {
    var r := a + ":" + b;
    assert r[..|r| - 3] == a;
    assert r[|r| - 2..] == b;
  }

  /** Padding a one-character field puts a single `'0'` in front. */
  lemma PadOne(c: char)
    ensures PadStart2([c]) == ['0', c]
  {
    var p := PadStart2([c]);
    assert |p| == 2 && p[0] == '0' && p[1..] == [c];
  }

  /** The text for given field values. */
  lemma FormatFields(seconds: real, a: string, b: string)
    requires PadStart2(FromInt(Minutes(seconds))) == a
    requires PadStart2(FromInt(Seconds(seconds))) == b
    ensures FormatTime(seconds) == a + ":" + b
  {
  }

  /** A time past a minute with a fractional part. */
  lemma ExampleMinuteAndAHalf()
    ensures FormatTime(75.5) == "01:15"
  {
    assert Minutes(75.5) == 1 && Seconds(75.5) == 15;
    assert FromNat(1) == "1" && FromNat(15) == "15";
    PadOne('1');
    FormatFields(75.5, "01", "15");
  }

  /** A full hour stays in minutes: sixty of them. */
  lemma ExampleHour()
    ensures FormatTime(3600.0) == "60:00"
  {
    assert Minutes(3600.0) == 60 && Seconds(3600.0) == 0;
    assert FromNat(60) == "60" && FromNat(0) == "0";
    PadOne('0');
    FormatFields(3600.0, "60", "00");
  }

  /** A negative input, which the source does not guard against: `-5`
      gives minutes -1 and seconds -5, and both are already two
      characters long. */
  lemma ExampleNegative()
    ensures FormatTime(-5.0) == "-1:-5"
  {
    assert Minutes(-5.0) == -1 && Seconds(-5.0) == -5;
    assert FromNat(1) == "1" && FromNat(5) == "5";
    FormatFields(-5.0, "-1", "-5");
  }
}

=== FILE: wrappers.dfy ===
/** Optional values: the source's `null` for "no current track" and its
    `undefined` for a missing table entry. */
module Wrappers {

  datatype Option<+T> = None | Some(value: T)
}
